=== FILE: README.md ===
# FormControl gesture model

A Dafny model of the pointer-gesture layer of mobiscroll's `FormControl`
(`src/js/classes/form-control.js`). A `FormControl` attaches to one form element. It turns
touch and mouse events into a single press/tap gesture. It highlights the pressed control
with the `mbsc-active` class, and through a module-level `$active` pointer it clears the
previous highlight when a new press begins. A touch-end tap focuses the control, may call
`preventDefault`, and, unless the kind contains "select", synthesises a click. A deferred clear (a 100 ms timer in the source)
removes the highlight after release.

The page is an immutable record (`Gesture.Page`) holding:
- every control's state (`Gesture.Control`: `isActive`, `startX`, `startY`, kind string,
  settings, element flags, listener set, marker class, back-reference);
- the `$active` pointer;
- the set of controls carrying `mbsc-active`;
- the multiset of scheduled deferred clears.

`OnStart`, `OnMove` and `OnEnd` are pure steps that return the next page together with the
effects the handler caused (`Gesture.Effects`: focused, prevented, clicked, ripple
started/stopped). The effects are returned beside the page rather than written into the
event record. A timer firing is the separate step `FireClear`. The external `testTouch`
test is the event's `ownsTarget` field, and the coordinates `getCoord` reads are the event's
`x` and `y`.

Modules:
- `Text`: the substring tests (`Contains`, proved equal to "an occurrence exists"), ASCII
  lower-casing, and `attr || default`.
- `ControlType`: `getControlType` and the kind tests used by the end handler.
- `Values`: the JavaScript values read from attributes and options, and their truthiness.
- `Settings`: the settings merge, the `tap` flag, and the ripple-theme lookup.
- `Gesture`: the state machine and the `handleEvent` router.
- `Lifecycle`: the constructor, `destroy`, `option`, and delivery of events to registered
  listeners.
- `Invariants`: an invariant preserved by every handler and by every sequence of actions.
- `GestureFacts`: multi-step properties of the handlers.
- `PasswordToggle`: the `addIconToggle` type/glyph flip.
- `Scenarios`: concrete end-to-end runs.

The model follows the code as written, including these behaviours:
- The move test at line 215 is `(isActive && |dx| > 9) || |dy| > 9`. Its precedence lets
  a vertical move cancel a control that is not pressed
  (`GestureFacts.VerticalMoveIgnoresIsActive`). The model keeps this precedence.
- A cancelling move leaves `$active` set.
- A disabled start removes the class from the previous `$active` but leaves `$active`
  pointing at it (`GestureFacts.DisabledStart`).
- `destroy` does not clear `$active` (`Lifecycle.DestroyKeepsStaleActive`).
- The code does not keep at most one control highlighted. The deferred clear leaves a
  window in which two controls are highlighted (`Scenarios.DeferredClearOverlap`). What
  does hold is weaker: every highlighted control is either still pressed or has a clear
  scheduled (`Invariants.RunPreserves`). While no gesture ends, only `$active` is
  highlighted (`Invariants.StartKeepsExclusion`).
- A destroyed control's press never ends, because its listeners are gone. Suppose a
  pressed control is destroyed and an end on another control then nulls `$active`. The
  destroyed control keeps `mbsc-active` for good, provided no clear from an earlier tap
  of it is still pending: no new clear is scheduled and no start elsewhere removes it. A
  clear that an earlier tap scheduled still fires and removes the class. The other
  exception is a new control constructed on the same element, whose own deferred clear
  would remove the class; that case is not modelled (see "## Left out")
  (`Invariants.DestroyStrandsHighlight`, `Invariants.StrandedForever`).
- Coordinates are JavaScript numbers, modelled as reals, so a fractional move just over 9
  cancels (`GestureFacts.FractionalMoveCancels`).
- `startX`/`startY` are `undefined` until the first accepted start. Comparing against
  them yields NaN, so no move cancels before a start (`GestureFacts.NoStartNoCancel`).
- An absent `data-role` is tested as the string "undefined". An empty `type` attribute
  falls back to the node name.

## Model

| member | source | states |
|---|---|---|
| Text.ContainsIffOccurs | src/js/classes/form-control.js:233 | the regular-expression tests are substring tests: the test succeeds exactly when the word occurs somewhere in the string |
| Text.ToLowerMeaning | src/js/classes/form-control.js:99 | the lower-cased node name has the same length, turns each upper-case letter into its lower-case partner, contains no upper-case letter, keeps every other character, and lower-casing it again changes nothing |
| Text.OrDefault | src/js/classes/form-control.js:99 | `attr || default` keeps the attribute exactly when it is truthy in JavaScript's sense (present and a non-empty string), else yields the default |
| ControlType.AbsentRoleNeverOverrides | src/js/classes/form-control.js:97-101 | a missing `data-role` (tested as "undefined") never overrides the type |
| ControlType.GetControlType | src/js/classes/form-control.js:95-106 | a role containing switch, range, rating, segmented or stepper is the kind; otherwise a non-empty `type` attribute is; otherwise the lower-cased node name is |
| ControlType.RoleWins | src/js/classes/form-control.js:101-103 | with a matching role, the node name and type attribute have no influence on the kind |
| ControlType.NonMatchingRoleIgnored | src/js/classes/form-control.js:99-105 | a role that does not match is the same as no role at all |
| ControlType.InteractiveKinds | src/js/classes/form-control.js:229-231 | checkbox, radio, switch, button and submit taps call preventDefault |
| ControlType.InteractiveKindsClick | src/js/classes/form-control.js:233-235 | checkbox, radio, switch, button and submit taps are clicked |
| ControlType.SelectKind | src/js/classes/form-control.js:229-235 | a select neither prevents the default nor is clicked |
| ControlType.SelectElementKind | src/js/classes/form-control.js:99-105 | a `<select>` element with no type attribute and no role gets the kind "select", which is never clicked |
| ControlType.TextKind | src/js/classes/form-control.js:229-235 | a text input is clicked without preventing the default |
| ControlType.SubstringQuirk | src/js/classes/form-control.js:229-235 | any kind merely containing "select" is exempt from the click, and any containing "button" prevents the default |
| Settings.Extend | src/js/classes/form-control.js:159 | a shallow merge: keys of the update win, and other keys keep their old value |
| Settings.ResolvedTap | src/js/classes/form-control.js:7-9 | `tap` comes from the instance settings if given, else from the global settings, else it is on exactly when the platform lacks touch-action |
| Settings.Resolve | src/js/classes/form-control.js:116 | the resolved settings hold exactly the keys of the defaults and the two layers; instance values win, then global values, and `tap` defaults to `!hasTouchAction` |
| Settings.RippleFor | src/js/classes/form-control.js:108-111 | the `getRipple(s.theme)` lookup; what it means for callers is stated by the three lemmas below |
| Settings.RippleReadsOnlyTheme | src/js/classes/form-control.js:108-111 | the ripple lookup depends on the `theme` option only: settings agreeing on `theme` find the same ripple |
| Lifecycle.OptionWithoutThemeKeepsRipple | src/js/classes/form-control.js:158-161 | an `option` update without a `theme` key leaves the control's ripple as it was |
| Lifecycle.OptionThemeSelectsRipple | src/js/classes/form-control.js:158-161 | an `option` update setting `theme` to a string turns the ripple on exactly when that theme has one |
| Settings.ExtendTwice | src/js/classes/form-control.js:158-161 | two `option` updates in a row equal one update with the later keys winning |
| Gesture.OnStart | src/js/classes/form-control.js:193-211 | an unowned touch changes nothing; otherwise the start point is recorded and the previous `$active` loses the class; an enabled control becomes pressed, becomes `$active` and gains the class (ripple started); a disabled one changes neither its press state nor `$active`, gains no class, and keeps its own class unless it is `$active` |
| Gesture.OnMove | src/js/classes/form-control.js:213-220 | the control loses the class and its press (ripple stopped) exactly when `(isActive && |dx|>9) || |dy|>9`; otherwise nothing changes; `$active` is never touched |
| Gesture.OnEnd | src/js/classes/form-control.js:222-248 | focus iff pressed, tap on, touchend and writable; preventDefault iff that and the kind matches button/submit/checkbox/switch/radio; click iff that and the kind lacks "select"; afterwards not pressed, `$active` null, one clear scheduled iff it was pressed, class untouched |
| Gesture.Route | src/js/classes/form-control.js:163-179 | touchstart/mousedown go to start, touchmove/mousemove to move, touchend/touchcancel/mouseup/mouseleave to end, anything else nowhere |
| Gesture.HandleEvent | src/js/classes/form-control.js:163-179 | each routed type runs its one handler; an unrouted type leaves the page unchanged with no effect |
| Gesture.FireClear | src/js/classes/form-control.js:238-243 | a fired clear removes that control's class (and stops its ripple) whatever `$active` is, consuming one scheduled clear |
| Lifecycle.ListenersMatchRouter | src/js/classes/form-control.js:6 | the eight registered event types are exactly those `handleEvent` routes |
| Lifecycle.Construct | src/js/classes/form-control.js:114-148 | a new control gets the classified kind, the three-layer merged settings (so the layered `tap`), the ripple looked up for the merged theme with no ripple element, all eight listeners, the marker class and back-reference, and starts unpressed with unset coordinates |
| Lifecycle.Destroy | src/js/classes/form-control.js:150-156 | destroy removes the marker class, every listener and the back-reference; the control's element, kind, settings, ripple, press state and coordinates, the other controls, `$active`, the highlights and the pending clears are unchanged |
| Lifecycle.SetOption | src/js/classes/form-control.js:158-161 | `option` merges the new keys over the stored settings and re-resolves the ripple for the resulting theme |
| Lifecycle.Deliver | src/js/classes/form-control.js:134-136 | an event reaches `handleEvent` only if its type is a registered listener |
| Lifecycle.DestroyedIsInert | src/js/classes/form-control.js:152-154 | after destroy no event has any effect on the control |
| Lifecycle.ConstructedRoutesAll | src/js/classes/form-control.js:134-136 | on a freshly constructed control, delivery is exactly routing |
| Lifecycle.DestroyKeepsStaleActive | src/js/classes/form-control.js:150-156 | destroying the `$active` control leaves `$active` pointing at it |
| Invariants.StartPreserves | src/js/classes/form-control.js:193-211 | a start keeps every highlighted control pressed or scheduled for clearing |
| Invariants.MovePreserves | src/js/classes/form-control.js:213-220 | so does a move |
| Invariants.EndPreserves | src/js/classes/form-control.js:222-248 | so does an end, which turns a pressed highlight into a scheduled one |
| Invariants.FirePreserves | src/js/classes/form-control.js:239-242 | so does a fired clear |
| Invariants.ApplyPreserves | src/js/classes/form-control.js:114-248 | so does any single action: event delivery, clear, construction, option update or destroy |
| Invariants.RunPreserves | src/js/classes/form-control.js:193-248 | over any sequence of actions, every highlighted control is still pressed or has a clear scheduled; the press may belong to a destroyed control and then never ends |
| Invariants.ApplyKeepsStranded | src/js/classes/form-control.js:150-247 | a highlight on a control without listeners, without a scheduled clear and not `$active` stays so under any single action |
| Invariants.StrandedForever | src/js/classes/form-control.js:150-247 | such a highlight survives every later sequence of actions |
| Invariants.DestroyStrandsHighlight | src/js/classes/form-control.js:150-156 | pressing a control, destroying it, then ending a gesture on another control strands the first control's highlight while the invariant still holds |
| Invariants.EmptyPage | src/js/classes/form-control.js:11 | the initial page (no controls, `$active` unset) satisfies the invariant |
| Invariants.StartKeepsExclusion | src/js/classes/form-control.js:200-209 | if only `$active` is highlighted before a start, the same holds after it and at most one control is highlighted |
| Invariants.MoveKeepsExclusion | src/js/classes/form-control.js:213-220 | a move keeps the highlight within `$active` |
| GestureFacts.MoveCancelsTap | src/js/classes/form-control.js:213-247 | after a cancelling move, any end event gives no focus, no preventDefault, no click and no scheduled clear |
| GestureFacts.SmallMoveKeepsPress | src/js/classes/form-control.js:215 | a move within 9 units on both axes leaves a live press untouched |
| GestureFacts.SecondEndInert | src/js/classes/form-control.js:238-247 | a second end after an end changes nothing and causes no effect: one press gives at most one click |
| GestureFacts.TapOnInteractiveKind | src/js/classes/form-control.js:226-243 | a qualifying tap on a button-like kind focuses, prevents the default, clicks once and schedules one clear |
| GestureFacts.SelectNeverClicked | src/js/classes/form-control.js:226-235 | a select kind is never clicked, though it is focused when the tap guard holds |
| GestureFacts.OnlyTouchEndTaps | src/js/classes/form-control.js:226 | mouseup, mouseleave and touchcancel never focus, prevent or click |
| GestureFacts.ReadOnlyNeverTapped | src/js/classes/form-control.js:226 | a read-only control is never focused, prevented or clicked by an end |
| GestureFacts.DisabledStart | src/js/classes/form-control.js:200-209 | a disabled start leaves `$active` as it was while removing its class, and neither presses nor highlights the disabled control |
| GestureFacts.VerticalMoveIgnoresIsActive | src/js/classes/form-control.js:215 | on an unpressed control a vertical move over 9 cancels, while no horizontal move does |
| GestureFacts.FractionalMoveCancels | src/js/classes/form-control.js:215 | a fractional displacement of 9.5 on a pressed control cancels |
| GestureFacts.NoStartNoCancel | src/js/classes/form-control.js:197-198 | before any accepted start no move cancels |
| PasswordToggle.InitialIcon | src/js/classes/form-control.js:53-59 | a right icon is requested iff the toggle attribute is set: the show glyph (default "eye") for a password input, else the hide glyph (default "eye-blocked") |
| PasswordToggle.Tap | src/js/classes/form-control.js:64-72 | a tap turns "text" into "password" and removes the hide glyph, turns any other type into "text" with the hide glyph, and touches no other glyph |
| PasswordToggle.InitialConsistent | src/js/classes/form-control.js:54-58 | the initial glyph matches the initial type |
| PasswordToggle.TapsConsistent | src/js/classes/form-control.js:64-72 | with distinct glyph names, after one or more taps the type is text or password and the icon matches it |
| PasswordToggle.TwoTaps | src/js/classes/form-control.js:65-71 | two taps return "text" to "text", and any other type ends as "password" |
| PasswordToggle.TwoTapsRoundTrip | src/js/classes/form-control.js:65-71 | two taps from a consistent password state restore it exactly |
| PasswordToggle.SameGlyphsVanish | src/js/classes/form-control.js:66-67 | with equal show and hide names, a tap from "text" leaves the icon with no glyph |
| Scenarios.CheckboxTap | src/js/classes/form-control.js:193-243 | a checkbox tap at (10,10) highlights, then focuses, prevents, clicks once, and is cleared when the timer fires |
| Scenarios.CheckboxPressed | src/js/classes/form-control.js:196-208 | the checkbox touch-start makes the control pressed, the only highlighted control and `$active`, with nothing scheduled |
| Scenarios.CheckboxReleased | src/js/classes/form-control.js:226-247 | the following touch-end focuses, prevents and clicks, clears `$active`, keeps the class and schedules exactly one clear |
| Scenarios.DeferredClearOverlap | src/js/classes/form-control.js:200-247 | a press starting before the previous tap's clear fires leaves two controls highlighted |
| Scenarios.PasswordToggleTap | src/js/classes/form-control.js:54-71 | a password input starts with "eye", and one tap makes it a text input showing "eye-blocked" |

## Left out

- Icon decoration (`addIcon`): wrapping, the error-message move, icon markup and the parse of
  a structured `data-icon` value. These are DOM tree changes made through a library that is
  not part of this model. `PasswordToggle` models only the glyph names on the right icon.
- Label wrapping (`wrapLabel`) and the inline-frame move in the constructor. These are
  cosmetic DOM changes.
- `getCoord`, `testTouch`, `triggerClick`, `tap` and `hasTouchAction` are in files that are
  not part of this model. They appear as event fields (`x`, `y`, `ownsTarget`), as output
  flags (`clicked`), and as a parameter (`hasTouchAction`).
- The ripple effect itself and the theme registry. A ripple appears only as the
  started/stopped flags. The registry is a set of theme names that have a ripple. A `theme`
  value that is not a string is treated as naming no ripple theme. The ripple target
  element is never set by this class, so a constructed control has `rippleElm` false.
- The 100 ms delay. A deferred clear is a pending entry that a later `FireClear` step
  consumes. Wall-clock order is not modelled.
- The actual `focus()`, `addEventListener`/`removeEventListener`, and the `mbscInst`
  back-reference. These appear as a flag, a listener set and a boolean.
- Text.ToLowerMeaning: `toLowerCase` is modelled for ASCII letters only. Node names are ASCII.
- Coordinates are reals: NaN and the infinities, which `getCoord` could in principle
  return, are not modelled. An unset start coordinate stands for the `undefined` case.
- Settings.Extend: values are booleans, strings, integers and null. NaN, objects and deep
  merging are not modelled. An `undefined` value in an update is treated as a present key.
- Element `disabled`/`readOnly` are fixed when the control is constructed. The source reads
  them live at event time, and changes to them between events are not modelled.
- Two instances on the same element are not modelled. Each instance has its own id, and its
  element's class is tracked by that id. This includes re-enhancing an element after
  `destroy`, so the model cannot show a later instance clearing a stranded class.

=== FILE: control_type.dfy ===
/** Control-kind classification (`getControlType`) and the kind-dependent
    rules that the end-of-gesture handler applies to the resulting string. */
module ControlType {
  import opened Wrappers
  import opened Text

  /** Roles that override the element's `type` attribute. */
  const RoleWords: seq<string> := ["switch", "range", "rating", "segmented", "stepper"]

  /** Kinds whose touch-end default action is prevented. */
  const PreventWords: seq<string> := ["button", "submit", "checkbox", "switch", "radio"]

  /** What a regular expression tests when `attr('data-role')` is absent:
      `undefined` converted to a string. */
  function RoleText(role: Option<string>): string
  {
    role.GetOr("undefined")
  }

  /** `/(switch|range|rating|segmented|stepper)/.test(role)` */
  predicate RoleOverrides(role: Option<string>)
  {
    ContainsAny(RoleText(role), RoleWords)
  }

  /** An absent role never overrides: "undefined" contains none of the role words. */
  lemma AbsentRoleNeverOverrides()
    ensures !RoleOverrides(None)
  {
    NoneOf("undefined", RoleWords, ['w', 'r', 'r', 's', 's']);
  }

  /** The control's kind string: a matching `data-role` wins, otherwise the
      `type` attribute when present and non-empty, otherwise the lower-cased
      node name. */
  function GetControlType(nodeName: string, typeAttr: Option<string>, role: Option<string>): (t: string)
    ensures RoleOverrides(role) ==> role.Some? && t == role.value
    ensures !RoleOverrides(role) && typeAttr.Some? && typeAttr.value != "" ==> t == typeAttr.value
    ensures !RoleOverrides(role) && (typeAttr.None? || typeAttr.value == "") ==> t == ToLower(nodeName)
  {
    AbsentRoleNeverOverrides();
    var t := OrDefault(typeAttr, ToLower(nodeName));
    if RoleOverrides(role) then RoleText(role) else t
  }

  /** A matching role decides the kind on its own: neither the node name nor
      the type attribute has any influence. */
  lemma RoleWins(n1: string, n2: string, t1: Option<string>, t2: Option<string>, role: Option<string>)
    requires RoleOverrides(role)
    ensures GetControlType(n1, t1, role) == GetControlType(n2, t2, role)
  {
  }

  /** Without a matching role, which role (if any) is present is irrelevant. */
  lemma NonMatchingRoleIgnored(n: string, t: Option<string>, r1: Option<string>, r2: Option<string>)
    requires !RoleOverrides(r1) && !RoleOverrides(r2)
    ensures GetControlType(n, t, r1) == GetControlType(n, t, r2) == GetControlType(n, t, None)
  {
  }

  /** `/(button|submit|checkbox|switch|radio)/.test(type)`: touch-end tap
      calls `preventDefault`. */
  predicate PreventsDefault(kind: string)
  {
    ContainsAny(kind, PreventWords)
  }

  /** `!/select/.test(type)`: touch-end tap synthesises a click. */
  predicate SynthesisesClick(kind: string)
  {
    !Contains(kind, "select")
  }

  /** `s` matches none of `words` when each word has a marks character
      that `s` lacks. */
  lemma NoneOf(s: string, words: seq<string>, marks: seq<char>)
    requires |marks| == |words|
    requires forall k :: 0 <= k < |words| ==> marks[k] in words[k] && marks[k] !in s
    ensures !ContainsAny(s, words)
  {
    forall k | 0 <= k < |words|
      ensures !Contains(s, words[k])
    {
      MissingCharNotContained(s, words[k], marks[k]);
    }
  }

  /** Checkbox, radio, switch, button and submit prevent the default action
      of a touch-end tap. */
  lemma InteractiveKinds()
    ensures PreventsDefault("checkbox")
    ensures PreventsDefault("radio")
    ensures PreventsDefault("switch")
    ensures PreventsDefault("button")
    ensures PreventsDefault("submit")
  {
    Matches("checkbox", PreventWords, 2);
    Matches("radio", PreventWords, 4);
    Matches("switch", PreventWords, 3);
    Matches("button", PreventWords, 0);
    Matches("submit", PreventWords, 1);
  }

  /** ... and are still clicked: none of them contains "select". */
  lemma InteractiveKindsClick()
    ensures forall k :: 0 <= k < |PreventWords| ==> SynthesisesClick(PreventWords[k])
  {
    forall k | 0 <= k < |PreventWords|
      ensures SynthesisesClick(PreventWords[k])
    {
      // "submit" and "switch" contain an 's' but no 'l'
      var c := if k == 1 || k == 3 then 'l' else 's';
      MissingCharNotContained(PreventWords[k], "select", c);
    }
  }

  /** A select is focused only: no preventDefault and no synthesised click. */
  lemma SelectKind()
    ensures !PreventsDefault("select") && !SynthesisesClick("select")
  {
    OccurrenceContained("select", "select", 0);
    NoneOf("select", PreventWords, ['b', 'u', 'h', 'w', 'r']);
  }

  /** A `<select>` element carries no `type` attribute and no role: its node
      name, lower-cased, makes it the "select" kind, which is never clicked. */
  lemma SelectElementKind()
    ensures GetControlType("SELECT", None, None) == "select"
    ensures !SynthesisesClick(GetControlType("SELECT", None, None))
  {
    assert ToLower("SELECT") == "select";
    SelectKind();
  }

  /** A text input is clicked without preventing the default. */
  lemma TextKind()
    ensures !PreventsDefault("text") && SynthesisesClick("text")
  {
    MissingCharNotContained("text", "select", 's');
    NoneOf("text", PreventWords, ['b', 'u', 'c', 's', 'r']);
  }

  /** `s` matches the alternation when it starts with the `k`-th word. */
  lemma Matches(s: string, words: seq<string>, k: nat)
    requires k < |words| && words[k] <= s
    ensures ContainsAny(s, words)
  {
    assert Contains(s, words[k]);
  }

  /** The tests are substring tests, not equality: any kind that merely
      contains "select" is exempt from the synthesised click, and any kind
      containing "button" prevents the default. */
  lemma SubstringQuirk()
    ensures !SynthesisesClick("multiselect")
    ensures PreventsDefault("radiobutton-list")
  {
    OccurrenceContained("multiselect", "select", 5);
    OccurrenceContained("radiobutton-list", PreventWords[0], 5);
    assert Contains("radiobutton-list", PreventWords[0]);
  }
}

=== FILE: gesture.dfy ===
/** The press/tap state machine of `FormControl`: `_onStart`, `_onMove`,
    `_onEnd`, the `handleEvent` router and the deferred visual clear.

    The page is an immutable record: every control's gesture state, the
    module-level `$active` pointer, the set of controls carrying the
    `mbsc-active` class and the multiset of scheduled (not yet fired)
    deferred clears. Each handler is a pure step that returns the next page
    and the browser effects it caused. */
module Gesture {
  import opened Wrappers
  import opened ControlType
  import opened Values
  import opened Settings
  import Text

  /** Movement beyond this many units on an axis cancels the press. */
  const MoveThreshold: real := 9.0

  type Id = nat

  /** The element properties the handlers read at event time. */
  datatype Element = Element(nodeName: string, typeAttr: Option<string>, role: Option<string>,
                             disabled: bool, readOnly: bool)

  /** One `FormControl` instance. `ripple` is the theme lookup result and
      `rippleElm` whether a ripple target element is set; a ripple is started
      or stopped only when both are. `startX`/`startY` are `undefined`
      (None) until the first accepted start. */
  datatype Control = Control(
    elm: Element,
    kind: string,
    settings: Options,
    ripple: bool,
    rippleElm: bool,
    isActive: bool,
    startX: Option<real>,
    startY: Option<real>,
    listeners: set<string>,
    marked: bool,
    linked: bool)

  datatype Page = Page(
    controls: map<Id, Control>,
    active: Option<Id>,
    highlighted: set<Id>,
    pending: multiset<Id>)

  /** A pointer event: its `type`, the coordinates `getCoord` would read
      (JavaScript numbers, which may be fractional), and whether `testTouch`
      accepts it for the control. */
  datatype Event = Event(kind: string, x: real, y: real, ownsTarget: bool)

  /** What a handler did outside the page state. */
  datatype Effects = Effects(focused: bool, prevented: bool, clicked: bool,
                             rippleStarted: bool, rippleStopped: bool)

  const NoEffects := Effects(false, false, false, false, false)

  datatype Step = Step(page: Page, fx: Effects)

  predicate RippleOn(c: Control)
  {
    c.ripple && c.rippleElm
  }

  function Abs(n: real): real
  {
    if n < 0.0 then -n else n
  }

  /** `Math.abs(now - start) > 9`; against an unset start the difference is
      NaN and the comparison is false. */
  predicate Exceeds(now: real, start: Option<real>)
  {
    match start
    case None => false
    case Some(s) => Abs(now - s) > MoveThreshold
  }

  /** Every control other than `id` is the same in both pages. */
  ghost predicate OthersUnchanged(p: Page, q: Page, id: Id)
  {
    && q.controls.Keys == p.controls.Keys
    && forall j :: j in p.controls && j != id ==> q.controls[j] == p.controls[j]
  }

  /** Gesture state aside, the control is the same. */
  ghost predicate SameConfig(c: Control, d: Control)
  {
    d == c.(isActive := d.isActive, startX := d.startX, startY := d.startY)
  }

  /** `_onStart`. */
  function OnStart(p: Page, id: Id, ev: Event): (r: Step)
    requires id in p.controls
    ensures OthersUnchanged(p, r.page, id) && SameConfig(p.controls[id], r.page.controls[id])
    ensures r.page.pending == p.pending
    ensures !ev.ownsTarget ==> r == Step(p, NoEffects)
    ensures ev.ownsTarget ==>
      && r.page.controls[id].startX == Some(ev.x)
      && r.page.controls[id].startY == Some(ev.y)
      // the previous `$active` loses the class, unless it is re-taken right away
      && (p.active.Some? && (p.active.value != id || p.controls[id].elm.disabled) ==>
            p.active.value !in r.page.highlighted)
      // nobody else's class changes
      && (forall j :: j != id && Some(j) != p.active ==> (j in r.page.highlighted <==> j in p.highlighted))
    ensures ev.ownsTarget && !p.controls[id].elm.disabled ==>
      && r.page.controls[id].isActive
      && r.page.active == Some(id)
      && id in r.page.highlighted
      && r.fx == NoEffects.(rippleStarted := RippleOn(p.controls[id]))
    ensures p.controls[id].elm.disabled ==>
      && r.page.controls[id].isActive == p.controls[id].isActive
      && r.page.active == p.active
      && r.page.highlighted <= p.highlighted
      && r.fx == NoEffects
    ensures ev.ownsTarget && p.controls[id].elm.disabled ==>
      (id in r.page.highlighted <==> id in p.highlighted && p.active != Some(id))
  {
    if !ev.ownsTarget then Step(p, NoEffects)
    else
      var c := p.controls[id].(startX := Some(ev.x), startY := Some(ev.y));
      var lit := if p.active.Some? then p.highlighted - {p.active.value} else p.highlighted;
      if c.elm.disabled then
        Step(p.(controls := p.controls[id := c], highlighted := lit), NoEffects)
      else
        Step(Page(p.controls[id := c.(isActive := true)], Some(id), lit + {id}, p.pending),
             NoEffects.(rippleStarted := RippleOn(c)))
  }

  /** The cancel condition of `_onMove`, with the source's precedence:
      `(isActive && |dx| > 9) || |dy| > 9`. */
  predicate MoveCancels(c: Control, ev: Event)
  {
    (c.isActive && Exceeds(ev.x, c.startX)) || Exceeds(ev.y, c.startY)
  }

  /** `_onMove`. */
  function OnMove(p: Page, id: Id, ev: Event): (r: Step)
    requires id in p.controls
    ensures OthersUnchanged(p, r.page, id) && SameConfig(p.controls[id], r.page.controls[id])
    ensures r.page.active == p.active && r.page.pending == p.pending
    ensures r.page.highlighted == p.highlighted - {id} || r.page.highlighted == p.highlighted
    ensures r.page.controls[id].startX == p.controls[id].startX
    ensures r.page.controls[id].startY == p.controls[id].startY
    ensures MoveCancels(p.controls[id], ev) ==>
      && !r.page.controls[id].isActive
      && id !in r.page.highlighted
      && r.fx == NoEffects.(rippleStopped := RippleOn(p.controls[id]))
    ensures !MoveCancels(p.controls[id], ev) ==> r == Step(p, NoEffects)
  {
    var c := p.controls[id];
    if MoveCancels(c, ev) then
      Step(p.(controls := p.controls[id := c.(isActive := false)], highlighted := p.highlighted - {id}),
           NoEffects.(rippleStopped := RippleOn(c)))
    else Step(p, NoEffects)
  }

  /** The guard of the tap branch of `_onEnd`. */
  predicate TapGuard(c: Control, ev: Event)
  {
    c.isActive && TapEnabled(c.settings) && ev.kind == "touchend" && !c.elm.readOnly
  }

  /** `_onEnd`: effects of the tap branch, then the deferred clear when the
      press was live, then the unconditional reset of `isActive` and `$active`. */
  function OnEnd(p: Page, id: Id, ev: Event): (r: Step)
    requires id in p.controls
    ensures OthersUnchanged(p, r.page, id) && SameConfig(p.controls[id], r.page.controls[id])
    ensures r.page.controls[id].startX == p.controls[id].startX
    ensures r.page.controls[id].startY == p.controls[id].startY
    ensures !r.page.controls[id].isActive && r.page.active == None
    ensures r.page.highlighted == p.highlighted
    ensures r.page.pending == p.pending + (if p.controls[id].isActive then multiset{id} else multiset{})
    ensures r.fx.focused <==> TapGuard(p.controls[id], ev)
    ensures r.fx.prevented <==> TapGuard(p.controls[id], ev) && PreventsDefault(p.controls[id].kind)
    ensures r.fx.clicked <==> TapGuard(p.controls[id], ev) && !Text.Contains(p.controls[id].kind, "select")
    ensures !p.controls[id].isActive ==> r.fx == NoEffects
    ensures !r.fx.rippleStarted && !r.fx.rippleStopped
  {
    var c := p.controls[id];
    var tapped := TapGuard(c, ev);
    var fx := NoEffects.(focused := tapped,
                         prevented := tapped && PreventsDefault(c.kind),
                         clicked := tapped && SynthesisesClick(c.kind));
    var pending := if c.isActive then p.pending + multiset{id} else p.pending;
    Step(Page(p.controls[id := c.(isActive := false)], None, p.highlighted, pending), fx)
  }

  /** The handler `handleEvent` dispatches an event type to. */
  datatype Handler = Start | Move | End

  /** The `switch` of `handleEvent`. */
  function Route(kind: string): (h: Option<Handler>)
    ensures h == Some(Start) <==> kind in {"touchstart", "mousedown"}
    ensures h == Some(Move) <==> kind in {"touchmove", "mousemove"}
    ensures h == Some(End) <==> kind in {"touchend", "touchcancel", "mouseup", "mouseleave"}
  {
    match kind
    case "touchstart" => Some(Start)
    case "mousedown" => Some(Start)
    case "touchmove" => Some(Move)
    case "mousemove" => Some(Move)
    case "touchend" => Some(End)
    case "touchcancel" => Some(End)
    case "mouseup" => Some(End)
    case "mouseleave" => Some(End)
    case _ => None
  }

  /** `handleEvent`. */
  function HandleEvent(p: Page, id: Id, ev: Event): (r: Step)
    requires id in p.controls
    ensures Route(ev.kind) == Some(Start) ==> r == OnStart(p, id, ev)
    ensures Route(ev.kind) == Some(Move) ==> r == OnMove(p, id, ev)
    ensures Route(ev.kind) == Some(End) ==> r == OnEnd(p, id, ev)
    ensures Route(ev.kind).None? ==> r == Step(p, NoEffects)
  {
    match Route(ev.kind)
    case Some(Start) => OnStart(p, id, ev)
    case Some(Move) => OnMove(p, id, ev)
    case Some(End) => OnEnd(p, id, ev)
    case None => Step(p, NoEffects)
  }

  /** The deferred clear scheduled by `_onEnd` fires: it closes over the
      control itself, so it clears that control's class (and stops its
      ripple) whatever `$active` points at by then. */
  function FireClear(p: Page, id: Id): (r: Step)
    requires id in p.pending && id in p.controls
    ensures r.page.controls == p.controls && r.page.active == p.active
    ensures id !in r.page.highlighted
    ensures forall j :: j != id ==> (j in r.page.highlighted <==> j in p.highlighted)
    ensures r.page.pending[id] + 1 == p.pending[id]
    ensures forall j :: j != id ==> r.page.pending[j] == p.pending[j]
    ensures r.fx == NoEffects.(rippleStopped := RippleOn(p.controls[id]))
  {
    Step(p.(highlighted := p.highlighted - {id}, pending := p.pending - multiset{id}),
         NoEffects.(rippleStopped := RippleOn(p.controls[id])))
  }
}

=== FILE: gesture_facts.dfy ===
/** Multi-step consequences of the gesture handlers: cancellation by
    movement, one click per press, and the behaviours the source has as
    written (the precedence of the move test, the disabled start). */
module GestureFacts {
  import opened Wrappers
  import opened ControlType
  import opened Gesture

  /** A move that cancels leaves nothing for the end to do: whatever the
      end event's type, no focus, no preventDefault, no click and no
      deferred clear follow. */
  lemma MoveCancelsTap(p: Page, id: Id, mv: Event, end: Event)
    requires id in p.controls
    requires MoveCancels(p.controls[id], mv)
    ensures var q := OnMove(p, id, mv).page;
      && OnEnd(q, id, end).fx == NoEffects
      && OnEnd(q, id, end).page.pending == q.pending
  {
  }

  /** A move within the threshold on both axes keeps a live press live. */
  lemma SmallMoveKeepsPress(p: Page, id: Id, mv: Event)
    requires id in p.controls && p.controls[id].isActive
    requires p.controls[id].startX.Some? && p.controls[id].startY.Some?
    requires Abs(mv.x - p.controls[id].startX.value) <= MoveThreshold
    requires Abs(mv.y - p.controls[id].startY.value) <= MoveThreshold
    ensures OnMove(p, id, mv) == Step(p, NoEffects)
  {
  }

  /** One press gives at most one click: a second end right after the
      first one has no effect besides clearing `$active`. */
  lemma SecondEndInert(p: Page, id: Id, e1: Event, e2: Event)
    requires id in p.controls
    ensures var q := OnEnd(p, id, e1).page;
      && OnEnd(q, id, e2).fx == NoEffects
      && OnEnd(q, id, e2).page == q
  {
  }

  /** A qualifying touch-end tap on a checkbox-like kind prevents the
      default and synthesises exactly one click, and schedules one clear. */
  lemma TapOnInteractiveKind(p: Page, id: Id, ev: Event)
    requires id in p.controls
    requires TapGuard(p.controls[id], ev)
    requires PreventsDefault(p.controls[id].kind) && SynthesisesClick(p.controls[id].kind)
    ensures var r := OnEnd(p, id, ev);
      && r.fx.focused && r.fx.prevented && r.fx.clicked
      && r.page.pending[id] == p.pending[id] + 1
  {
  }

  /** A control whose kind contains "select" is focused by a qualifying tap
      but never clicked. */
  lemma SelectNeverClicked(p: Page, id: Id, ev: Event)
    requires id in p.controls && !SynthesisesClick(p.controls[id].kind)
    ensures !OnEnd(p, id, ev).fx.clicked
    ensures OnEnd(p, id, ev).fx.focused == TapGuard(p.controls[id], ev)
  {
  }

  /** Only a touch-end taps: mouse-up, mouse-leave and touch-cancel end the
      press without focus or click. */
  lemma OnlyTouchEndTaps(p: Page, id: Id, ev: Event)
    requires id in p.controls && ev.kind != "touchend"
    ensures var fx := OnEnd(p, id, ev).fx; !fx.focused && !fx.prevented && !fx.clicked
  {
  }

  /** A read-only control keeps its press feedback but is never tapped. */
  lemma ReadOnlyNeverTapped(p: Page, id: Id, ev: Event)
    requires id in p.controls && p.controls[id].elm.readOnly
    ensures var fx := OnEnd(p, id, ev).fx; !fx.focused && !fx.prevented && !fx.clicked
  {
  }

  /** A start on a disabled control never presses it: it does not become
      active nor `$active`, and gains no class; the previous `$active`
      loses its class but stays the recorded `$active`. */
  lemma DisabledStart(p: Page, id: Id, ev: Event)
    requires id in p.controls && p.controls[id].elm.disabled && ev.ownsTarget
    requires p.active.Some? && p.active.value in p.highlighted
    ensures var q := OnStart(p, id, ev).page;
      && q.active == p.active
      && p.active.value !in q.highlighted
      && q.controls[id].isActive == p.controls[id].isActive
      && (id in q.highlighted ==> id in p.highlighted)
  {
  }

  /** The move test is `(isActive && |dx| > 9) || |dy| > 9`: a vertical
      move cancels even on a control that is not pressed (stopping its
      ripple and clearing its class early), while on such a control no
      horizontal move, however large, cancels. */
  lemma VerticalMoveIgnoresIsActive(c: Control, y0: real, ev: Event)
    requires !c.isActive && c.startY == Some(y0) && Abs(ev.y - y0) > MoveThreshold
    ensures MoveCancels(c, ev)
    ensures !MoveCancels(c, ev.(y := y0))
  {
  }

  /** Coordinates are JavaScript numbers: a fractional displacement just
      over the threshold cancels a press. */
  lemma FractionalMoveCancels(c: Control, ev: Event)
    requires c.isActive && c.startX == Some(0.0) && ev.x == 9.5
    ensures MoveCancels(c, ev)
  {
  }

  /** Before any accepted start the coordinates are unset and no move
      cancels anything. */
  lemma NoStartNoCancel(c: Control, ev: Event)
    requires c.startX.None? && c.startY.None?
    ensures !MoveCancels(c, ev)
  {
  }
}

=== FILE: invariants.dfy ===
/** Page-wide properties of the gesture state machine, proved for every
    handler and lifted to arbitrary interleavings of events, deferred
    clears, construction, option updates and destruction. */
module Invariants {
  import opened Wrappers
  import opened Values
  import opened Settings
  import opened Gesture
  import opened Lifecycle

  /** Every id the page refers to names a control. */
  ghost predicate Valid(p: Page)
  {
    && (p.active.Some? ==> p.active.value in p.controls)
    && (forall j :: j in p.pending ==> j in p.controls)
    && (forall j :: j in p.highlighted ==> j in p.controls)
  }

  /** Every highlight is accounted for: a control showing `mbsc-active` is
      still pressed or already has a clear scheduled. A press on a live
      control ends with a scheduled clear; a destroyed control's press never
      ends (see `DestroyStrandsHighlight`). */
  ghost predicate NoStuckHighlight(p: Page)
  {
    forall j :: j in p.highlighted ==> j in p.pending || (j in p.controls && p.controls[j].isActive)
  }

  /** When `$active` still shows the class, its control is pressed. */
  ghost predicate ActiveIsPressed(p: Page)
  {
    p.active.Some? && p.active.value in p.highlighted ==>
      p.active.value in p.controls && p.controls[p.active.value].isActive
  }

  ghost predicate Inv(p: Page)
  {
    Valid(p) && NoStuckHighlight(p) && ActiveIsPressed(p)
  }

  lemma StartPreserves(p: Page, id: Id, ev: Event)
    requires id in p.controls && Inv(p)
    ensures Inv(OnStart(p, id, ev).page)
  {
  }

  lemma MovePreserves(p: Page, id: Id, ev: Event)
    requires id in p.controls && Inv(p)
    ensures Inv(OnMove(p, id, ev).page)
  {
  }

  lemma EndPreserves(p: Page, id: Id, ev: Event)
    requires id in p.controls && Inv(p)
    ensures Inv(OnEnd(p, id, ev).page)
  {
  }

  lemma FirePreserves(p: Page, id: Id)
    requires id in p.pending && Inv(p)
    ensures Inv(FireClear(p, id).page)
  {
  }

  lemma CreatePreserves(p: Page, id: Id, elm: Element, g: Options, i: Options, h: bool, t: set<string>)
    requires id !in p.controls && Inv(p)
    ensures Inv(Construct(p, id, elm, g, i, h, t))
  {
  }

  lemma RemovePreserves(p: Page, id: Id)
    requires id in p.controls && Inv(p)
    ensures Inv(Destroy(p, id))
  {
  }

  lemma UpdatePreserves(p: Page, id: Id, s: Options, t: set<string>)
    requires id in p.controls && Inv(p)
    ensures Inv(SetOption(p, id, s, t))
  {
  }

  /** One thing that can happen to the page. */
  datatype Action =
    | Dispatch(id: Id, ev: Event)
    | Fire(id: Id)
    | Create(id: Id, elm: Element, global: Options, instance: Options, hasTouchAction: bool, themes: set<string>)
    | Remove(id: Id)
    | Update(id: Id, opts: Options, themes: set<string>)

  /** An action applied to the page; one that names no live target (an
      unknown control, a clear that is not scheduled, a second instance on
      the same id) leaves the page alone. */
  function Apply(p: Page, a: Action): Page
  {
    match a
    case Dispatch(id, ev) => if id in p.controls then Deliver(p, id, ev).page else p
    case Fire(id) => if id in p.pending && id in p.controls then FireClear(p, id).page else p
    case Create(id, elm, g, i, h, t) => if id !in p.controls then Construct(p, id, elm, g, i, h, t) else p
    case Remove(id) => if id in p.controls then Destroy(p, id) else p
    case Update(id, s, t) => if id in p.controls then SetOption(p, id, s, t) else p
  }

  function Run(p: Page, acts: seq<Action>): Page
    decreases |acts|
  {
    if |acts| == 0 then p else Run(Apply(p, acts[0]), acts[1..])
  }

  lemma ApplyPreserves(p: Page, a: Action)
    requires Inv(p)
    ensures Inv(Apply(p, a))
  {
    match a
    case Dispatch(id, ev) =>
      if id in p.controls && ev.kind in p.controls[id].listeners {
        assert Apply(p, a) == HandleEvent(p, id, ev).page;
        match Route(ev.kind)
        case Some(Start) => StartPreserves(p, id, ev);
        case Some(Move) => MovePreserves(p, id, ev);
        case Some(End) => EndPreserves(p, id, ev);
        case None =>
      }
    case Fire(id) =>
      if id in p.pending && id in p.controls {
        FirePreserves(p, id);
      }
    case Create(id, elm, g, i, h, t) =>
      if id !in p.controls {
        CreatePreserves(p, id, elm, g, i, h, t);
      }
    case Remove(id) =>
      if id in p.controls {
        RemovePreserves(p, id);
      }
    case Update(id, s, t) =>
      if id in p.controls {
        UpdatePreserves(p, id, s, t);
      }
  }

  /** Starting from an empty page (or any page satisfying the invariant),
      every sequence of actions keeps every highlight accounted for. */
  lemma {:induction false} RunPreserves(p: Page, acts: seq<Action>)
    requires Inv(p)
    ensures Inv(Run(p, acts))
    decreases |acts|
  {
    if |acts| > 0 {
      ApplyPreserves(p, acts[0]);
      RunPreserves(Apply(p, acts[0]), acts[1..]);
    }
  }

  /** The empty page satisfies the invariant. */
  lemma EmptyPage()
    ensures Inv(Page(map[], None, {}, multiset{}))
  {
  }

  /** A highlight nothing will ever remove: the control has no listeners
      left (so no end can schedule its clear), no clear is scheduled, and
      `$active` is not it (so no start elsewhere clears it). */
  ghost predicate Stranded(p: Page, id: Id)
  {
    && id in p.controls && id in p.highlighted && id !in p.pending
    && p.controls[id].listeners == {} && p.active != Some(id)
  }

  lemma ApplyKeepsStranded(p: Page, id: Id, a: Action)
    requires Stranded(p, id)
    ensures Stranded(Apply(p, a), id)
  {
    match a
    case Dispatch(j, ev) =>
      if j in p.controls && ev.kind in p.controls[j].listeners {
        assert j != id;
        assert Apply(p, a) == HandleEvent(p, j, ev).page;
      }
    case Fire(j) =>
    case Create(j, elm, g, i, h, t) =>
    case Remove(j) =>
    case Update(j, s, t) =>
  }

  /** Once stranded, the class stays on the control for good, whatever
      happens afterwards. */
  lemma {:induction false} StrandedForever(p: Page, id: Id, acts: seq<Action>)
    requires Stranded(p, id)
    ensures Stranded(Run(p, acts), id) && id in Run(p, acts).highlighted
    decreases |acts|
  {
    if |acts| > 0 {
      ApplyKeepsStranded(p, id, acts[0]);
      StrandedForever(Apply(p, acts[0]), id, acts[1..]);
    }
  }

  /** `destroy` strands a pressed highlight: press control 1, destroy it,
      then let any end on control 2 null `$active`. Control 1 keeps the
      class with no clear scheduled, and nothing can remove it. */
  lemma DestroyStrandsHighlight(c1: Control, c2: Control, start: Event, end: Event)
    requires !c1.elm.disabled && start.ownsTarget && Route(start.kind) == Some(Start)
    requires start.kind in c1.listeners && end.kind in c2.listeners && Route(end.kind) == Some(End)
    ensures var p := Page(map[1 := c1, 2 := c2], None, {}, multiset{});
      var q := Deliver(Destroy(Deliver(p, 1, start).page, 1), 2, end).page;
      Stranded(q, 1) && Inv(q)
  {
    var p := Page(map[1 := c1, 2 := c2], None, {}, multiset{});
    var p1 := Deliver(p, 1, start).page;
    assert p1 == OnStart(p, 1, start).page;
    var p2 := Destroy(p1, 1);
    var p3 := Deliver(p2, 2, end).page;
    assert p3 == OnEnd(p2, 2, end).page;
  }

  /** While no gesture has ended, the class is shown only by `$active`:
      starts and moves keep `highlighted` within `{$active}`. */
  ghost predicate OnlyActiveHighlighted(p: Page)
  {
    forall j :: j in p.highlighted ==> p.active == Some(j)
  }

  lemma StartKeepsExclusion(p: Page, id: Id, ev: Event)
    requires id in p.controls && OnlyActiveHighlighted(p)
    ensures OnlyActiveHighlighted(OnStart(p, id, ev).page)
    ensures forall a, b :: a in OnStart(p, id, ev).page.highlighted && b in OnStart(p, id, ev).page.highlighted ==> a == b
  {
  }

  lemma MoveKeepsExclusion(p: Page, id: Id, ev: Event)
    requires id in p.controls && OnlyActiveHighlighted(p)
    ensures OnlyActiveHighlighted(OnMove(p, id, ev).page)
  {
  }
}

=== FILE: lifecycle.dfy ===
/** The control façade: construction (settings merge, kind classification,
    listener registration, marker class, back-reference), `destroy`,
    `option`, and delivery of a DOM event to a registered listener. */
module Lifecycle {
  import opened Wrappers
  import opened Values
  import opened Settings
  import opened ControlType
  import opened Gesture

  /** The eight pointer event types a control listens to. */
  const Events: seq<string> := ["touchstart", "touchmove", "touchend", "touchcancel",
                                "mousedown", "mousemove", "mouseup", "mouseleave"]

  function EventSet(): set<string>
  {
    set i | 0 <= i < |Events| :: Events[i]
  }

  /** The registered listener set and the router agree: an event type is
      listened to exactly when `handleEvent` has a handler for it. */
  lemma ListenersMatchRouter(kind: string)
    ensures kind in EventSet() <==> Route(kind).Some?
  {
    if Route(kind).Some? {
      var i := if kind == "touchstart" then 0 else if kind == "touchmove" then 1
        else if kind == "touchend" then 2 else if kind == "touchcancel" then 3
        else if kind == "mousedown" then 4 else if kind == "mousemove" then 5
        else if kind == "mouseup" then 6 else 7;
      assert Events[i] == kind;
    }
  }

  /** `new FormControl(elm, settings)` for a fresh instance `id`. The ripple
      target element is not set by this class, so `rippleElm` starts false. */
  function Construct(p: Page, id: Id, elm: Element, global: Options, instance: Options,
                     hasTouchAction: bool, rippleThemes: set<string>): (r: Page)
    requires id !in p.controls
    ensures r.controls.Keys == p.controls.Keys + {id}
    ensures forall j :: j in p.controls ==> r.controls[j] == p.controls[j]
    ensures r.active == p.active && r.highlighted == p.highlighted && r.pending == p.pending
    ensures var c := r.controls[id];
      && c.elm == elm
      && c.kind == GetControlType(elm.nodeName, elm.typeAttr, elm.role)
      && (TapEnabled(c.settings) <==>
            if "tap" in instance then Truthy(instance["tap"])
            else if "tap" in global then Truthy(global["tap"])
            else !hasTouchAction)
      && c.settings == Resolve(global, instance, hasTouchAction)
      && (c.ripple <==> RippleFor(c.settings, rippleThemes)) && !c.rippleElm
      && c.listeners == EventSet() && c.marked && c.linked
      && !c.isActive && c.startX.None? && c.startY.None?
  {
    ResolvedTap(global, instance, hasTouchAction);
    var s := Resolve(global, instance, hasTouchAction);
    var c := Control(elm, GetControlType(elm.nodeName, elm.typeAttr, elm.role), s,
                     RippleFor(s, rippleThemes), false, false, None, None, EventSet(), true, true);
    p.(controls := p.controls[id := c])
  }

  /** `destroy()`: the marker class, every listener and the back-reference go;
      gesture state, `$active` and pending clears are left as they are. */
  function Destroy(p: Page, id: Id): (r: Page)
    requires id in p.controls
    ensures OthersUnchanged(p, r, id)
    ensures r.controls[id].listeners == {} && !r.controls[id].marked && !r.controls[id].linked
    ensures var c, d := p.controls[id], r.controls[id];
      && d.elm == c.elm && d.kind == c.kind && d.settings == c.settings
      && d.ripple == c.ripple && d.rippleElm == c.rippleElm
      && d.isActive == c.isActive && d.startX == c.startX && d.startY == c.startY
    ensures r.active == p.active && r.highlighted == p.highlighted && r.pending == p.pending
  {
    p.(controls := p.controls[id := p.controls[id].(listeners := {}, marked := false, linked := false)])
  }

  /** `option(s)`: merge into the stored settings, then look the ripple up
      again for the (possibly new) theme. */
  function SetOption(p: Page, id: Id, s: Options, rippleThemes: set<string>): (r: Page)
    requires id in p.controls
    ensures OthersUnchanged(p, r, id)
    ensures r.active == p.active && r.highlighted == p.highlighted && r.pending == p.pending
    ensures var c := r.controls[id];
      && c.settings.Keys == p.controls[id].settings.Keys + s.Keys
      && (forall k :: k in s ==> c.settings[k] == s[k])
      && (forall k :: k in p.controls[id].settings && k !in s ==> c.settings[k] == p.controls[id].settings[k])
      && (c.ripple <==> RippleFor(c.settings, rippleThemes))
      && c == p.controls[id].(settings := c.settings, ripple := c.ripple)
  {
    var c := p.controls[id];
    var merged := Extend(c.settings, s);
    p.(controls := p.controls[id := c.(settings := merged, ripple := RippleFor(merged, rippleThemes))])
  }

  /** An `option` call without a `theme` key keeps the ripple the control
      had (for the same theme registry). */
  lemma OptionWithoutThemeKeepsRipple(p: Page, id: Id, s: Options, rippleThemes: set<string>)
    requires id in p.controls && "theme" !in s
    requires p.controls[id].ripple == RippleFor(p.controls[id].settings, rippleThemes)
    ensures SetOption(p, id, s, rippleThemes).controls[id].ripple == p.controls[id].ripple
  {
    RippleReadsOnlyTheme(Extend(p.controls[id].settings, s), p.controls[id].settings, rippleThemes);
  }

  /** An `option` call that sets `theme` to a string switches the ripple on
      exactly when that theme has one, whatever the previous theme was. */
  lemma OptionThemeSelectsRipple(p: Page, id: Id, s: Options, t: string, rippleThemes: set<string>)
    requires id in p.controls && "theme" in s && s["theme"] == Str(t)
    ensures SetOption(p, id, s, rippleThemes).controls[id].ripple <==> t in rippleThemes
  {
  }

  /** The browser delivers an event to the element: only a registered
      listener runs `handleEvent`. */
  function Deliver(p: Page, id: Id, ev: Event): (r: Step)
    requires id in p.controls
    ensures ev.kind in p.controls[id].listeners ==> r == HandleEvent(p, id, ev)
    ensures ev.kind !in p.controls[id].listeners ==> r == Step(p, NoEffects)
  {
    if ev.kind in p.controls[id].listeners then HandleEvent(p, id, ev) else Step(p, NoEffects)
  }

  /** After `destroy`, no event reaches the control any more. */
  lemma DestroyedIsInert(p: Page, id: Id, ev: Event)
    requires id in p.controls
    ensures Deliver(Destroy(p, id), id, ev) == Step(Destroy(p, id), NoEffects)
  {
  }

  /** On a live control, delivery is exactly routing: every routed type is
      listened to. */
  lemma ConstructedRoutesAll(p: Page, id: Id, elm: Element, global: Options, instance: Options,
                             hasTouchAction: bool, rippleThemes: set<string>, ev: Event)
    requires id !in p.controls
    ensures var q := Construct(p, id, elm, global, instance, hasTouchAction, rippleThemes);
      Deliver(q, id, ev) == HandleEvent(q, id, ev)
  {
    ListenersMatchRouter(ev.kind);
  }

  /** `destroy` does not clear `$active`: a destroyed control that was the
      active one stays referenced until some later end or start. */
  lemma DestroyKeepsStaleActive(p: Page, id: Id)
    requires id in p.controls && p.active == Some(id)
    ensures Destroy(p, id).active == Some(id)
  {
  }
}

=== FILE: password_toggle.dfy ===
/** The password-visibility toggle of `addIconToggle`: the glyph chosen for
    the right icon at construction and the type/glyph flip on each tap of
    that icon. */
module PasswordToggle {
  import opened Wrappers
  import opened Text

  const DefaultShow := "eye"
  const DefaultHide := "eye-blocked"

  /** The input's `type` and the glyph names on the right icon's class list. */
  datatype Toggle = Toggle(inputType: string, glyphs: set<string>)

  /** The right icon requested at construction: present only when
      `data-password-toggle` is set (non-empty); the shown glyph for a
      password input, the hidden glyph otherwise. */
  function InitialIcon(toggle: Option<string>, inputType: string,
                       showAttr: Option<string>, hideAttr: Option<string>): (r: Option<string>)
    ensures r.Some? <==> toggle.Some? && toggle.value != ""
    ensures r.Some? && inputType == "password" ==> r.value == OrDefault(showAttr, DefaultShow)
    ensures r.Some? && inputType != "password" ==> r.value == OrDefault(hideAttr, DefaultHide)
  {
    if toggle.Some? && toggle.value != "" then
      Some(if inputType == "password" then OrDefault(showAttr, DefaultShow) else OrDefault(hideAttr, DefaultHide))
    else None
  }

  /** One tap on the toggle icon. */
  function Tap(t: Toggle, shown: string, hidden: string): (r: Toggle)
    ensures t.inputType == "text" ==> r.inputType == "password" && hidden !in r.glyphs
    ensures t.inputType != "text" ==> r.inputType == "text" && hidden in r.glyphs
    ensures shown != hidden ==> (shown in r.glyphs <==> r.inputType == "password")
    ensures forall g :: g != shown && g != hidden ==> (g in r.glyphs <==> g in t.glyphs)
  {
    if t.inputType == "text" then Toggle("password", t.glyphs + {shown} - {hidden})
    else Toggle("text", t.glyphs - {shown} + {hidden})
  }

  /** The icon shows the glyph that matches the input type. */
  ghost predicate Consistent(t: Toggle, shown: string, hidden: string)
  {
    && (t.inputType == "password" ==> shown in t.glyphs && hidden !in t.glyphs)
    && (t.inputType == "text" ==> hidden in t.glyphs && shown !in t.glyphs)
  }

  /** The initial icon is consistent with the initial type, for the glyph
      names the attributes (or their defaults) resolve to. */
  lemma InitialConsistent(toggle: Option<string>, inputType: string,
                          showAttr: Option<string>, hideAttr: Option<string>)
    requires toggle.Some? && toggle.value != ""
    requires OrDefault(showAttr, DefaultShow) != OrDefault(hideAttr, DefaultHide)
    ensures Consistent(Toggle(inputType, {InitialIcon(toggle, inputType, showAttr, hideAttr).value}),
                       OrDefault(showAttr, DefaultShow), OrDefault(hideAttr, DefaultHide))
  {
  }

  function Taps(t: Toggle, n: nat, shown: string, hidden: string): Toggle
    decreases n
  {
    if n == 0 then t else Taps(Tap(t, shown, hidden), n - 1, shown, hidden)
  }

  /** With distinct glyph names, every tap leaves the icon matching the
      type, from any starting state; and the type alternates between
      "text" and "password". */
  lemma {:induction false} TapsConsistent(t: Toggle, n: nat, shown: string, hidden: string)
    requires shown != hidden && n > 0
    ensures Consistent(Taps(t, n, shown, hidden), shown, hidden)
    ensures Taps(t, n, shown, hidden).inputType in {"text", "password"}
    decreases n
  {
    if n > 1 {
      TapsConsistent(Tap(t, shown, hidden), n - 1, shown, hidden);
    }
  }

  /** Two taps restore a password or text input; any other type ends as
      "password". */
  lemma TwoTaps(t: Toggle, shown: string, hidden: string)
    ensures Tap(Tap(t, shown, hidden), shown, hidden).inputType ==
      if t.inputType == "text" then "text" else "password"
  {
  }

  /** Two taps from a consistent password state return to exactly that
      icon state. */
  lemma TwoTapsRoundTrip(t: Toggle, shown: string, hidden: string)
    requires shown != hidden && t.inputType == "password" && Consistent(t, shown, hidden)
    ensures Tap(Tap(t, shown, hidden), shown, hidden) == t
  {
  }

  /** When the shown and hidden names coincide, the tap from "text" adds the
      name and then removes it: the icon is left with no glyph at all. */
  lemma SameGlyphsVanish(glyphs: set<string>, g: string)
    ensures g !in Tap(Toggle("text", glyphs), g, g).glyphs
  {
  }
}

=== FILE: scenarios.dfy ===
/** Concrete end-to-end runs of the model on small pages. */
module Scenarios {
  import opened Wrappers
  import opened Text
  import opened Values
  import opened Settings
  import opened ControlType
  import opened Gesture
  import opened Lifecycle
  import opened PasswordToggle

  const Empty := Page(map[], None, {}, multiset{})

  const CheckboxElm := Element("INPUT", Some("checkbox"), None, false, false)

  /** An enabled, writable checkbox constructed with `tap` on. */
  const Built := Construct(Empty, 1, CheckboxElm, map[], map["tap" := Bool(true)], false, {})

  const Press := Event("touchstart", 10.0, 10.0, true)
  const Release := Event("touchend", 10.0, 10.0, true)

  /** The page after a touch-start at (10, 10) on the checkbox. */
  function Pressed(): Step
  {
    assert 1 in Built.controls;
    Deliver(Built, 1, Press)
  }

  /** The page after the touch-end at (10, 10) that follows. */
  function Released(): Step
  {
    assert 1 in Pressed().page.controls;
    Deliver(Pressed().page, 1, Release)
  }

  lemma CheckboxBuilt()
    ensures 1 in Built.controls
    ensures var c := Built.controls[1];
      && c.kind == PreventWords[2] && TapEnabled(c.settings)
      && Press.kind in c.listeners && Release.kind in c.listeners
      && !c.isActive && !c.elm.disabled && !c.elm.readOnly
  {
    AbsentRoleNeverOverrides();
    ListenersMatchRouter(Press.kind);
    ListenersMatchRouter(Release.kind);
  }

  lemma CheckboxPressed()
    ensures 1 in Pressed().page.controls
    ensures Pressed().page.highlighted == {1} && Pressed().page.active == Some(1)
    ensures var c := Pressed().page.controls[1];
      c.isActive && c.kind == PreventWords[2] && TapEnabled(c.settings) && !c.elm.readOnly
      && Release.kind in c.listeners
    ensures Pressed().page.pending == multiset{}
  {
    CheckboxBuilt();
    assert Pressed() == OnStart(Built, 1, Press);
  }

  lemma CheckboxReleased()
    ensures Released().fx.focused && Released().fx.prevented && Released().fx.clicked
    ensures Released().page.active == None && Released().page.highlighted == {1}
    ensures Released().page.pending == multiset{1} && 1 in Released().page.controls
  {
    CheckboxPressed();
    assert Released() == OnEnd(Pressed().page, 1, Release);
    InteractiveKinds();
    InteractiveKindsClick();
  }

  /** The checkbox tap end to end: the touch-start highlights the control
      and makes it `$active`; the touch-end focuses it, prevents the default
      and synthesises one click, leaving the class for the deferred clear;
      firing that clear removes it. */
  lemma CheckboxTap()
    ensures Pressed().page.highlighted == {1} && Pressed().page.active == Some(1)
    ensures Released().fx.focused && Released().fx.prevented && Released().fx.clicked
    ensures Released().page.active == None && Released().page.highlighted == {1}
    ensures 1 in Released().page.pending && 1 in Released().page.controls
    ensures FireClear(Released().page, 1).page.highlighted == {}
  {
    CheckboxPressed();
    CheckboxReleased();
  }

  /** The deferred clear leaves a window in which two controls show the
      class: control 1 is tapped, and control 2 is pressed before the
      clear of control 1 has fired. */
  lemma DeferredClearOverlap(c1: Control, c2: Control, ev: Event)
    requires !c1.elm.disabled && !c2.elm.disabled && ev.ownsTarget
    ensures var p := Page(map[1 := c1, 2 := c2], None, {}, multiset{});
      var q := OnStart(OnEnd(OnStart(p, 1, ev).page, 1, ev).page, 2, ev).page;
      q.highlighted == {1, 2} && q.pending == multiset{1}
  {
  }

  /** A password input with a toggle and no glyph attributes: the right icon
      starts as "eye"; one tap makes it a text input showing "eye-blocked". */
  lemma PasswordToggleTap()
    ensures InitialIcon(Some("true"), "password", None, None) == Some("eye")
    ensures var t := Tap(Toggle("password", {"eye"}), DefaultShow, DefaultHide);
      t.inputType == "text" && t.glyphs == {"eye-blocked"}
  {
  }
}

=== FILE: settings.dfy ===
/** Option handling: the constructor's `extend({}, defaults, mobiscroll.settings, settings)`,
    the in-place merge of `option(s)`, JavaScript truthiness of the `tap`
    flag, and the theme lookup that decides whether a ripple is available. */
module Settings {
  import opened Values

  type Options = map<string, Value>

  /** Shallow merge, keys of `src` win: `extend(target, src)`. */
  function Extend(target: Options, src: Options): (r: Options)
    ensures r.Keys == target.Keys + src.Keys
    ensures forall k :: k in src ==> r[k] == src[k]
    ensures forall k :: k in target && k !in src ==> r[k] == target[k]
  {
    target + src
  }

  /** The component defaults: `tap` is on unless the platform already
      advertises `touch-action` support. */
  function Defaults(hasTouchAction: bool): Options
  {
    map["tap" := Bool(!hasTouchAction)]
  }

  /** Settings of a new control: defaults, then the global settings, then the
      per-instance settings. Every key comes from one of the layers, and the
      later layer wins. */
  function Resolve(global: Options, instance: Options, hasTouchAction: bool): (r: Options)
    ensures r.Keys == {"tap"} + global.Keys + instance.Keys
    ensures forall k :: k in instance ==> r[k] == instance[k]
    ensures forall k :: k in global && k !in instance ==> r[k] == global[k]
    ensures "tap" !in global && "tap" !in instance ==> r["tap"] == Bool(!hasTouchAction)
  {
    Extend(Extend(Extend(map[], Defaults(hasTouchAction)), global), instance)
  }

  /** `settings.tap` read as a condition; a missing key is `undefined`. */
  predicate TapEnabled(s: Options)
  {
    "tap" in s && Truthy(s["tap"])
  }

  /** The precedence of the three layers for `tap`: instance, then global,
      then the platform default. */
  lemma ResolvedTap(global: Options, instance: Options, hasTouchAction: bool)
    ensures TapEnabled(Resolve(global, instance, hasTouchAction)) ==
      if "tap" in instance then Truthy(instance["tap"])
      else if "tap" in global then Truthy(global["tap"])
      else !hasTouchAction
  {
  }

  /** Whether `getRipple(s.theme)` finds a ripple. `rippleThemes` is the
      set of theme names whose form entry has `addRipple`; a `theme` value
      that is not a string names none of them. */
  function RippleFor(s: Options, rippleThemes: set<string>): (b: bool)
    ensures b <==> exists t :: t in rippleThemes && "theme" in s && s["theme"] == Str(t)
  {
    "theme" in s && s["theme"].Str? && s["theme"].s in rippleThemes
  }

  /** The ripple lookup reads the `theme` option and nothing else: settings
      that agree on `theme` (both lacking it, or holding the same value)
      find the same ripple. */
  lemma RippleReadsOnlyTheme(s1: Options, s2: Options, rippleThemes: set<string>)
    requires ("theme" in s1 <==> "theme" in s2) && ("theme" in s1 ==> s1["theme"] == s2["theme"])
    ensures RippleFor(s1, rippleThemes) == RippleFor(s2, rippleThemes)
  {
  }

  /** Merging options is associative in effect: two updates in a row are one
      update with the later keys winning. */
  lemma ExtendTwice(s: Options, a: Options, b: Options)
    ensures Extend(Extend(s, a), b) == Extend(s, Extend(a, b))
  {
  }
}

=== FILE: text.dfy ===
/** String helpers: the unanchored regular-expression tests of form-control.js
    (`/select/`, `/(button|submit|...)/`) are substring tests, and node names
    are lower-cased before use. */
module Text {
  import opened Wrappers
  import opened Values

  /** `sub` occurs in `s` starting at index `i`. */
  predicate OccursAt(s: string, sub: string, i: nat)
  {
    i + |sub| <= |s| && s[i..i + |sub|] == sub
  }

  /** Reference meaning of a substring test: some occurrence exists. */
  ghost predicate HasOccurrence(s: string, sub: string)
  {
    exists i: nat :: OccursAt(s, sub, i)
  }

  /** Substring test, as an unanchored regular expression made of plain
      letters matches: try every start position from the left. */
  function Contains(s: string, sub: string): bool
    decreases |s|
  {
    if sub <= s then true
    else if |s| == 0 then false
    else Contains(s[1..], sub)
  }

  /** A successful test has an occurrence to show for it. */
  lemma {:induction false} ContainedOccurs(s: string, sub: string) returns (i: nat)
    requires Contains(s, sub)
    ensures OccursAt(s, sub, i)
    decreases |s|
  {
    if sub <= s {
      i := 0;
      assert s[0..|sub|] == sub;
    } else {
      var j := ContainedOccurs(s[1..], sub);
      i := j + 1;
      assert s[i..i + |sub|] == s[1..][j..j + |sub|];
    }
  }

  /** Any concrete occurrence makes the test succeed. */
  lemma {:induction false} OccurrenceContained(s: string, sub: string, i: nat)
    requires OccursAt(s, sub, i)
    ensures Contains(s, sub)
    decreases i
  {
    if i == 0 {
      assert sub <= s;
    } else if !(sub <= s) {
      assert s[1..][i - 1..i - 1 + |sub|] == s[i..i + |sub|];
      OccurrenceContained(s[1..], sub, i - 1);
    }
  }

  /** The executable test agrees with the reference meaning, in both directions. */
  lemma ContainsIffOccurs(s: string, sub: string)
    ensures Contains(s, sub) <==> HasOccurrence(s, sub)
  {
    if Contains(s, sub) {
      var i := ContainedOccurs(s, sub);
    }
    if HasOccurrence(s, sub) {
      var i: nat :| OccursAt(s, sub, i);
      OccurrenceContained(s, sub, i);
    }
  }

  /** Every character of a prefix occurs in the whole. */
  lemma PrefixChars(s: string, sub: string, c: char)
    ensures sub <= s && c in sub ==> c in s
  {
    if sub <= s && c in sub {
      var j :| 0 <= j < |sub| && sub[j] == c;
      assert s[j] == c;
    }
  }

  /** A word containing a character that `s` lacks cannot occur in `s`. */
  lemma {:induction false} MissingCharNotContained(s: string, sub: string, c: char)
    requires c in sub && c !in s
    ensures !Contains(s, sub)
    decreases |s|
  {
    PrefixChars(s, sub, c);
    if |s| > 0 {
      assert c !in s[1..];
      MissingCharNotContained(s[1..], sub, c);
    }
  }

  /** Alternation of plain words, `/(w0|w1|...)/.test(s)`. */
  predicate ContainsAny(s: string, words: seq<string>)
  {
    exists k :: 0 <= k < |words| && Contains(s, words[k])
  }

  /** Lower-casing of one character; only the ASCII letters A-Z are mapped. */
  function LowerChar(c: char): char
  {
    if 'A' <= c <= 'Z' then (c as int - 'A' as int + 'a' as int) as char else c
  }

  predicate IsUpper(c: char)
  {
    'A' <= c <= 'Z'
  }

  /** `String.prototype.toLowerCase`, restricted to ASCII letters. */
  function ToLower(s: string): string
  {
    seq(|s|, i requires 0 <= i < |s| => LowerChar(s[i]))
  }

  /** Lower-casing keeps the length, turns each upper-case letter into its
      lower-case partner in the alphabet, changes nothing that is not an
      upper-case letter, and is idempotent. */
  lemma ToLowerMeaning(s: string)
    ensures |ToLower(s)| == |s|
    ensures forall i :: 0 <= i < |s| ==> !IsUpper(ToLower(s)[i])
    ensures forall i :: 0 <= i < |s| && IsUpper(s[i]) ==>
      ToLower(s)[i] == "abcdefghijklmnopqrstuvwxyz"[s[i] as int - 'A' as int]
    ensures forall i :: 0 <= i < |s| && !IsUpper(s[i]) ==> ToLower(s)[i] == s[i]
    ensures ToLower(ToLower(s)) == ToLower(s)
  {
  }

  /** `attr(name) || default`: JavaScript's `||` keeps its left operand when
      that is truthy; `attr` yields `undefined` (falsy) for an absent
      attribute and the attribute's string otherwise. */
  function OrDefault(attr: Option<string>, default: string): (r: string)
    ensures r == (if attr.Some? && Truthy(Str(attr.value)) then attr.value else default)
  {
    match attr
    case Some(v) => if |v| > 0 then v else default
    case None => default
  }
}

=== FILE: values.dfy ===
/** The JavaScript values this component reads from attributes and
    options, and the truthiness a condition or `||` applies to them. */
module Values {

  /** The values an option can hold, as far as this component reads them. */
  datatype Value = Bool(b: bool) | Str(s: string) | Num(n: int) | Null

  /** JavaScript truthiness (NaN is not modelled). */
  predicate Truthy(v: Value)
  {
    match v
    case Bool(b) => b
    case Str(s) => s != ""
    case Num(n) => n != 0
    case Null => false
  }
}

=== FILE: wrappers.dfy ===
/** The Some/None datatype standing in for JavaScript's `undefined`/`null`
    (a missing attribute, an unset coordinate, a null `$active` pointer). */
module Wrappers {

  datatype Option<+T> = None | Some(value: T) {

    /** The value in Some, or `default` when None. */
    function GetOr(default: T): T
    {
      match this
      case Some(v) => v
      case None => default
    }
  }
}
